=== FILE: README.md ===
# Variant population of a Label Generation Ruleset, in Dafny

This project models `populate_lgr` from lgr-core, the routine that repairs
the code-point variant relation of a Label Generation Ruleset (the LGR
format of RFC 7940). It proves the properties the routine promises.

The ruleset is `Lgr(repertoire, variants)`:

- `repertoire` lists the entries' code points in order.
- `variants` maps each entry to the ordered list of its variant targets.
- An edge `a -> b` means "b is a variant of a".

The routine runs in two phases.

1. **Missing entries** (`MissingEntries.RepairMissing`). It scans every
   edge `a -> b` of the original entries. If `b` has no entry, `b` gets an
   empty entry and the mirror edge `b -> a`. Once `b` has been added, later
   lookups of `b` succeed. So only the *first* entry naming `b` (in
   repertoire order) gets a mirror edge in this phase. The other entries
   naming `b` get theirs from the symmetry pass. For the same reason, the
   `now_in_lgr` test at line 31 is always true when it is reached. The
   model keeps the test, and the invariant `Phase1Shape` shows why it
   always passes.
2. **Fixed point** (`Populate.PopulateLgr`). While the relation is not both
   symmetric and transitive, it runs a symmetry pass
   (`Closure.SymmetryPass`) and then a transitivity pass
   (`Closure.TransitivityPass`).

The main results:

- **Outcome.** On exit, every target has an entry and the relation is
  symmetric and transitive. "Transitive" does not count a path
  `a -> b -> a` that returns to its start.
- **Exact result.** The result is the *least* such relation containing the
  original edges (`Forced` in `VariantRelation`). Every edge it holds is
  demanded by symmetry and transitivity, so the final edge set does not
  depend on the repertoire order.
- **Monotonicity.** Entries and edges are only appended, never removed or
  reordered, and no duplicate edge is ever inserted (`Grows`, `Extends`).
  Every entry created in phase one lists each variant once. No self-edge is
  ever created.
- **Termination.** Each round of the loop adds at least one edge. The number
  of edges is at most |entries|².
- **Idempotence.** An already populated ruleset is returned unchanged. So a
  second run on the result changes nothing.

The four modules follow the routine's structure:

- `VariantRelation` holds the data model and the ruleset's own
  `add_cp`/`add_variant`.
- `MissingEntries` holds phase one.
- `Closure` holds the two sub-passes.
- `Populate` holds the loop.

## Model

| member | source | states |
|---|---|---|
| `VariantRelation.AddCp` | lgr/populate/__init__.py:34 | Adding a missing code point makes it an entry with no variants. It goes at the end of the repertoire order. Old entries and edges are untouched, and the ruleset stays well formed. |
| `VariantRelation.AddVariant` | lgr/populate/__init__.py:39 | Inserting a variant adds exactly the edge `a -> b`, which must not be present yet. No other entry changes, and the entry set stays the same. |
| `VariantRelation.ClosedIffPopulated` | lgr/populate/__init__.py:41 | The loop's exit test (symmetric and transitive) holds exactly when the edge set is closed under mirroring and under short-cutting two-hop paths that do not return to their start. Because a symmetric relation has an entry for every target, the same test is equivalent to `Populated`. |
| `VariantRelation.EdgeBound` | lgr/populate/__init__.py:41-62 | Once every target is an entry, there are at most \|entries\|² edges. This bounds the loop. |
| `VariantRelation.LeastClosureUnique` | lgr/populate/__init__.py:41-62 | Two closed relations over the same original edges, both holding only forced edges, are equal. So the outcome does not depend on the scanning order. |
| `MissingEntries.FirstReferrerSpec` | lgr/populate/__init__.py:26-35 | The referrer found for `b` is an entry that names `b`, and no earlier entry names `b`. No referrer is found only when no entry names `b`. |
| `MissingEntries.RepairTarget` | lgr/populate/__init__.py:28-39 | Scanning one edge `a -> b` keeps the phase-one state. If `b` is missing, it is appended to the repertoire and to the list of added code points, with the single variant `a`, and every other entry is unchanged. If `b` is present, the ruleset and that list are unchanged. |
| `MissingEntries.RepairEntry` | lgr/populate/__init__.py:27-39 | Scanning all targets of one entry extends the phase-one state to that entry. |
| `MissingEntries.RepairMissing` | lgr/populate/__init__.py:24-39 | After phase one, every target has an entry. The entries are the old ones plus every target. Old entries keep their lists. Each new entry holds exactly one edge, back to the first entry that named it. Every edge is original or mirrors an original edge. The ruleset is unchanged when no target was missing. |
| `Closure.Without` | lgr/populate/__init__.py:56 | The second-level variants scanned are exactly those of `b` other than the origin `a`. |
| `Closure.MirrorEdge` | lgr/populate/__init__.py:48-51 | After scanning `a -> b`, the edge `b -> a` exists. It is inserted only when missing, and it is the only edge that may be added: the repertoire and entries are unchanged, and the edge set grows by `b -> a` alone. |
| `Closure.MirrorEntry` | lgr/populate/__init__.py:44-51 | After scanning an entry, every original edge out of it has its mirror. Every edge the scan adds ends at the scanned entry. |
| `Closure.SymmetryPass` | lgr/populate/__init__.py:43-51 | After the pass, the relation is symmetric. It holds exactly the original edges and their mirrors. Lists are only extended, without duplicates. An already symmetric relation is left unchanged. |
| `Closure.ShortcutEdge` | lgr/populate/__init__.py:59-62 | After scanning `a -> b -> c` with `c` distinct from `a`, the edge `a -> c` exists. It is inserted only when missing, it is forced, and it is never a self-edge. It is the only edge that may be added: the repertoire and entries are unchanged, and the edge set grows by `a -> c` alone. |
| `Closure.ShortcutVia` | lgr/populate/__init__.py:56-62 | After scanning `b`, every original variant `c` of `b` other than `a` is a variant of `a`. Every edge the scan adds starts at `a` and ends at a variant that `b` had when the scan began. |
| `Closure.ShortcutEntry` | lgr/populate/__init__.py:55-62 | After scanning an entry, every original two-hop path from it that does not return to it has its short-cut. Every edge the scan adds starts at the scanned entry and short-cuts a two-hop path that was present when the scan began (`Hop`). |
| `Closure.TransitivityPass` | lgr/populate/__init__.py:54-62 | Every two-hop path present at the start of the pass, `a -> b -> c` with `c` distinct from `a`, gets its short-cut. Every edge added is forced. Each added edge `x -> y` has a first hop `x -> m` that was already an edge at the start of the pass, and `m -> y` is an edge of the result. No self-edge is created. An already transitive relation is left unchanged. |
| `Populate.RoundAddsEdge` | lgr/populate/__init__.py:41-62 | If the loop guard holds, one round (symmetry pass, then transitivity pass) strictly enlarges the edge set. |
| `Populate.CloseOnce` | lgr/populate/__init__.py:41-62 | One round keeps the entries and only adds forced edges. It leaves a populated relation unchanged and adds at least one edge to any other. |
| `Populate.PopulateLgr` | lgr/populate/__init__.py:17-62 | The routine terminates. On exit, every target has an entry and the relation is symmetric and transitive. The entries are the old ones plus every target, and nothing is removed or reordered. Old lists are only extended without a duplicate, and every new entry lists each variant once. Every edge is demanded by the original edges, and no self-edge is created. A ruleset that is already populated is returned unchanged. |
| `Populate.ChainClosesToClique` | lgr/populate/__init__.py:41-62 | Starting from the chain `a -> b -> c`, the closed relation that holds only forced edges is exactly the six-edge symmetric clique on `a`, `b`, `c`. |
| `Populate.PopulateChain` | lgr/populate/__init__.py:17-62 | Running the routine on the three entries `a -> b -> c` yields exactly those three entries and the six-edge symmetric clique on them. |

## Left out

- Logging (`logger.info` at lines 32-33, 37-38, 49-50, 60-61) and
  `format_cp`: they have no effect on the relation.
- Variant metadata (type, when/not-when rules, comments): an edge is just a
  target code point. A code point is one `nat`, not a sequence of code
  points.
- The ruleset's `VariantAlreadyExists` and its refusal to add an existing
  code point become preconditions of `AddVariant` and `AddCp`. Every call
  site in the routine provably meets them, so these errors never arise.
- `check_symmetry` and `check_transitivity` (lines 10-11) are not part of
  this model. They are replaced by the predicates `Symmetric` and
  `Transitive`. `Transitive` deliberately skips paths `a -> b -> a`, which
  is what lines 56-62 repair. If the real checker were stricter and
  demanded self-edges, the loop would never end, because it never adds a
  self-edge.
- The docstring's "result of checks and summary" (line 22): the code returns
  nothing, so no return value or audit log is modelled.
- Whether `get_variants()` returns a live view is not visible. Each scan
  uses the variant list as it stands when that entry (or that second-level
  lookup) is reached; a live view is not modelled. The guarantee of
  `Closure.TransitivityPass` that each added edge has an original first hop
  relies on this snapshot: with a live view, an edge added to `a`'s list
  during its own scan could serve as the first hop of a later one.
- `PopulateLgr`: requires `WellFormed`, the ruleset's own invariant. Each
  code point is listed once, and the repertoire order lists exactly the
  entries.
- The lookup at line 29 raises `NotInLGR` for every target without an
  entry. That is the handled path of lines 30-39, modelled as the test
  `b !in r.variants` in `RepairTarget`. The lookups at lines 48 and 56
  cannot fail, because phase one leaves every target with an entry
  (`TargetsExist`), and each pass keeps that. Other exceptions from the
  ruleset layer are not modelled.

=== FILE: closure.dfy ===
/**
 Phase two of population: the symmetry pass and the transitivity pass, run
 in turn until the relation is symmetric and transitive.
 */
module Closure {
  import opened VariantRelation

  /** The variant list `s` with every occurrence of `x` dropped, order kept. */
  function Without(s: seq<CodePoint>, x: CodePoint): (r: seq<CodePoint>)
    ensures forall y :: y in r <==> y in s && y != x
    ensures |r| <= |s|
  {
    if s == [] then []
    else if s[0] == x then Without(s[1..], x)
    else [s[0]] + Without(s[1..], x)
  }

  /** Every edge of `g` that `g0` lacks ends at `a`. */
  ghost predicate NewEdgesInto(g0: Graph, g: Graph, a: CodePoint) {
    forall x, y | HasEdge(g, x, y) && !HasEdge(g0, x, y) :: y == a
  }

  /** Every edge of `g` that `g0` lacks starts at `a`. */
  ghost predicate NewEdgesOutOf(g0: Graph, g: Graph, a: CodePoint) {
    forall x, y | HasEdge(g, x, y) && !HasEdge(g0, x, y) :: x == a
  }

  lemma NewEdgesIntoStep(g0: Graph, g: Graph, g1: Graph, b: CodePoint, a: CodePoint)
    requires NewEdgesInto(g0, g, a) && Edges(g1) == Edges(g) + {(b, a)}
    ensures NewEdgesInto(g0, g1, a)
  {
    forall x: CodePoint, y: CodePoint | HasEdge(g1, x, y) && !HasEdge(g0, x, y)
      ensures y == a
    {
      assert (x, y) in Edges(g1);
    }
  }

  lemma NewEdgesOutOfStep(g0: Graph, g: Graph, g1: Graph, a: CodePoint, c: CodePoint)
    requires NewEdgesOutOf(g0, g, a) && Edges(g1) == Edges(g) + {(a, c)}
    ensures NewEdgesOutOf(g0, g1, a)
  {
    forall x: CodePoint, y: CodePoint | HasEdge(g1, x, y) && !HasEdge(g0, x, y)
      ensures x == a
    {
      assert (x, y) in Edges(g1);
    }
  }

  lemma NewEdgesOutOfChain(g0: Graph, g: Graph, g1: Graph, a: CodePoint)
    requires NewEdgesOutOf(g0, g, a) && NewEdgesOutOf(g, g1, a)
    ensures NewEdgesOutOf(g0, g1, a)
  {
  }

  // ---------------------------------------------------------------- symmetry

  /** What holds at every step of a symmetry pass that started from `l`. */
  ghost predicate MirrorInv(l: Lgr, r: Lgr) {
    && r.repertoire == l.repertoire && r.variants.Keys == l.variants.Keys
    && TargetsExist(r.variants) && Grows(l, r)
    && (forall x, y | HasEdge(r.variants, x, y) :: HasEdge(l.variants, x, y) || HasEdge(l.variants, y, x))
    && (forall x, y | HasEdge(r.variants, x, y) && !HasEdge(l.variants, x, y) :: HasEdge(r.variants, y, x))
    && (Symmetric(l.variants) ==> r == l)
  }

  /** Scanning the edge a -> b: add b -> a unless `a` is already among `b`'s variants. */
  method MirrorEdge(l: Lgr, r0: Lgr, a: CodePoint, b: CodePoint) returns (r: Lgr)
    requires MirrorInv(l, r0) && HasEdge(r0.variants, a, b)
    ensures MirrorInv(l, r) && Grows(r0, r) && HasEdge(r.variants, b, a)
    ensures r.repertoire == r0.repertoire && r.variants.Keys == r0.variants.Keys
    ensures Edges(r.variants) == Edges(r0.variants) + {(b, a)}
  {
    r := r0;
    if a !in r.variants[b] {
      r := AddVariant(r, b, a);
      GrowsTransitive(l, r0, r);
    } else {
      GrowsReflexive(r0);
    }
  }

  /** Scanning the variant list of the entry `rep[i]` in the symmetry pass. */
  method MirrorEntry(l: Lgr, r0: Lgr, i: nat) returns (r: Lgr)
    requires WellFormed(l) && i < |l.repertoire| && MirrorInv(l, r0)
    ensures MirrorInv(l, r) && Grows(r0, r)
    ensures forall y | HasEdge(l.variants, l.repertoire[i], y) :: HasEdge(r.variants, y, l.repertoire[i])
    ensures NewEdgesInto(r0.variants, r.variants, l.repertoire[i])
  {
    var a := l.repertoire[i];
    r := r0;
    GrowsReflexive(r0);
    var vs := r.variants[a];
    var j := 0;
    while j < |vs|
      invariant 0 <= j <= |vs|
      invariant MirrorInv(l, r) && Grows(r0, r)
      invariant forall y | y in vs :: HasEdge(r.variants, a, y)
      invariant forall y | y in vs[..j] :: HasEdge(r.variants, y, a)
      invariant NewEdgesInto(r0.variants, r.variants, a)
    {
      var r1 := MirrorEdge(l, r, a, vs[j]);
      NewEdgesIntoStep(r0.variants, r.variants, r1.variants, vs[j], a);
      GrowsKeepsEdges(r, r1);
      GrowsTransitive(r0, r, r1);
      MirrorEntryStep(r, r1, a, vs, j);
      r := r1;
      j := j + 1;
    }
    assert vs[..j] == vs;
    GrowsKeepsEdges(l, r0);
  }

  lemma MirrorEntryStep(r: Lgr, r1: Lgr, a: CodePoint, vs: seq<CodePoint>, j: nat)
    requires j < |vs|
    requires forall y | y in vs[..j] :: HasEdge(r.variants, y, a)
    requires forall x, y | HasEdge(r.variants, x, y) :: HasEdge(r1.variants, x, y)
    requires HasEdge(r1.variants, vs[j], a)
    ensures forall y | y in vs[..j + 1] :: HasEdge(r1.variants, y, a)
  {
    assert vs[..j + 1] == vs[..j] + [vs[j]];
  }

  /** The symmetry sub-pass: every edge a -> b present when it is scanned
      gets its mirror b -> a, added only when missing. */
  method SymmetryPass(l: Lgr) returns (r: Lgr)
    requires WellFormed(l) && TargetsExist(l.variants)
    ensures r.repertoire == l.repertoire && r.variants.Keys == l.variants.Keys
    ensures TargetsExist(r.variants) && Grows(l, r)
    ensures Symmetric(r.variants)
    ensures forall a, b | HasEdge(r.variants, a, b) :: HasEdge(l.variants, a, b) || HasEdge(l.variants, b, a)
    ensures Symmetric(l.variants) ==> r == l
  {
    var rep := l.repertoire;
    r := l;
    GrowsReflexive(l);
    var i := 0;
    while i < |rep|
      invariant 0 <= i <= |rep|
      invariant MirrorInv(l, r)
      invariant forall k, y | 0 <= k < i && HasEdge(l.variants, rep[k], y) :: HasEdge(r.variants, y, rep[k])
    {
      var r1 := MirrorEntry(l, r, i);
      GrowsKeepsEdges(r, r1);
      r := r1;
      i := i + 1;
    }
    MirrorComplete(l, r);
  }

  lemma MirrorComplete(l: Lgr, r: Lgr)
    requires WellFormed(l) && MirrorInv(l, r)
    requires forall k, y | 0 <= k < |l.repertoire| && HasEdge(l.variants, l.repertoire[k], y) ::
               HasEdge(r.variants, y, l.repertoire[k])
    ensures Symmetric(r.variants)
  {
    forall x, y | x in r.variants && y in r.variants[x]
      ensures y in r.variants && x in r.variants[y]
    {
      assert HasEdge(r.variants, x, y);
      if HasEdge(l.variants, x, y) {
        var k :| 0 <= k < |l.repertoire| && l.repertoire[k] == x;
      }
    }
  }

  // ------------------------------------------------------------ transitivity

  /** What holds at every step of a transitivity pass that started from `l`. */
  ghost predicate ShortcutInv(l: Lgr, r: Lgr) {
    && r.repertoire == l.repertoire && r.variants.Keys == l.variants.Keys
    && TargetsExist(r.variants) && Grows(l, r)
    && Forced(Edges(l.variants), Edges(r.variants))
    && (forall x | HasEdge(r.variants, x, x) :: HasEdge(l.variants, x, x))
    && OnlyShortcuts(l, r)
    && (Transitive(l.variants) ==> r == l)
  }

  /** The short-cuts x -> y of the paths x -> m -> y whose first hop is an
      edge of `g0` and whose second hop is an edge of `g`. */
  function Hop(g0: Graph, g: Graph): (t: set<Edge>) {
    set x, m, y | x in g0 && m in g0[x] && m in g && y in g[m] :: (x, y)
  }

  /** Every edge of `g` that `g0` lacks belongs to `s`. */
  ghost predicate AddedWithin(g0: Graph, g: Graph, s: set<Edge>) {
    forall x: CodePoint, y: CodePoint | HasEdge(g, x, y) && !HasEdge(g0, x, y) :: (x, y) in s
  }

  /** Every edge of `r` missing from `l` short-cuts a two-hop path of `r`. */
  ghost predicate OnlyShortcuts(l: Lgr, r: Lgr) {
    AddedWithin(l.variants, r.variants, Hop(r.variants, r.variants))
  }

  /** More edges, more paths. */
  lemma HopGrows(g0: Graph, g: Graph, h0: Graph, h: Graph)
    requires Edges(g0) <= Edges(h0) && Edges(g) <= Edges(h)
    ensures Hop(g0, g) <= Hop(h0, h)
  {
    forall p | p in Hop(g0, g)
      ensures p in Hop(h0, h)
    {
      var x, m, y :| x in g0 && m in g0[x] && m in g && y in g[m] && p == (x, y);
      assert (x, m) in Edges(h0) && (m, y) in Edges(h);
      assert x in h0 && m in h0[x] && m in h && y in h[m];
    }
  }

  /** Adding the short-cut of a path that is already there keeps `OnlyShortcuts`. */
  lemma ShortcutAdded(l: Lgr, r0: Lgr, r: Lgr, a: CodePoint, b: CodePoint, c: CodePoint)
    requires OnlyShortcuts(l, r0) && HasEdge(r0.variants, a, b) && HasEdge(r0.variants, b, c)
    requires Edges(r.variants) == Edges(r0.variants) + {(a, c)}
    ensures OnlyShortcuts(l, r)
  {
    HopGrows(r0.variants, r0.variants, r.variants, r.variants);
    var g := r.variants;
    assert (a, b) in Edges(g) && (b, c) in Edges(g);
    assert a in g && b in g[a] && b in g && c in g[b];
    assert (a, c) in Hop(g, g);
    forall x: CodePoint, y: CodePoint | HasEdge(g, x, y) && !HasEdge(l.variants, x, y)
      ensures (x, y) in Hop(g, g)
    {
      assert (x, y) in Edges(g);
    }
  }

  /** Scanning the path a -> b -> c, c distinct from a: add a -> c unless
      `c` is already among `a`'s variants. */
  method ShortcutEdge(l: Lgr, r0: Lgr, a: CodePoint, b: CodePoint, c: CodePoint) returns (r: Lgr)
    requires ShortcutInv(l, r0) && HasEdge(r0.variants, a, b) && HasEdge(r0.variants, b, c) && c != a
    ensures ShortcutInv(l, r) && Grows(r0, r) && HasEdge(r.variants, a, c)
    ensures r.repertoire == r0.repertoire && r.variants.Keys == r0.variants.Keys
    ensures Edges(r.variants) == Edges(r0.variants) + {(a, c)}
  {
    r := r0;
    if c !in r.variants[a] {
      ForcedShortcut(Edges(l.variants), Edges(r0.variants), a, b, c);
      r := AddVariant(r, a, c);
      GrowsTransitive(l, r0, r);
      ShortcutAdded(l, r0, r, a, b, c);
    } else {
      GrowsReflexive(r0);
    }
  }

  /** Scanning the second-level variants of `a` through `b`. */
  method ShortcutVia(l: Lgr, r0: Lgr, a: CodePoint, b: CodePoint) returns (r: Lgr)
    requires ShortcutInv(l, r0) && HasEdge(r0.variants, a, b)
    ensures ShortcutInv(l, r) && Grows(r0, r)
    ensures forall c | HasEdge(l.variants, b, c) && c != a :: HasEdge(r.variants, a, c)
    ensures NewEdgesOutOf(r0.variants, r.variants, a)
    ensures forall x, y | HasEdge(r.variants, x, y) && !HasEdge(r0.variants, x, y) :: HasEdge(r0.variants, b, y)
  {
    r := r0;
    GrowsReflexive(r0);
    var cs := Without(r.variants[b], a);
    var k := 0;
    while k < |cs|
      invariant 0 <= k <= |cs|
      invariant ShortcutInv(l, r) && Grows(r0, r)
      invariant HasEdge(r.variants, a, b)
      invariant forall c | c in cs :: HasEdge(r.variants, b, c) && c != a
      invariant forall c | c in cs[..k] :: HasEdge(r.variants, a, c)
      invariant NewEdgesOutOf(r0.variants, r.variants, a)
      invariant NewTargetsIn(r0.variants, r.variants, cs)
    {
      var r1 := ShortcutEdge(l, r, a, b, cs[k]);
      NewEdgesOutOfStep(r0.variants, r.variants, r1.variants, a, cs[k]);
      NewTargetsInStep(r0.variants, r.variants, r1.variants, a, cs, k);
      ShortcutEdgeStep(r.variants, r1.variants, a, b, cs, k);
      GrowsTransitive(r0, r, r1);
      r := r1;
      k := k + 1;
    }
    assert cs[..k] == cs;
    GrowsKeepsEdges(l, r0);
  }

  lemma ShortcutEdgeStep(g: Graph, g1: Graph, a: CodePoint, b: CodePoint, cs: seq<CodePoint>, k: nat)
    requires k < |cs| && Edges(g1) == Edges(g) + {(a, cs[k])}
    requires HasEdge(g, a, b) && (forall c | c in cs :: HasEdge(g, b, c) && c != a)
    requires forall c | c in cs[..k] :: HasEdge(g, a, c)
    ensures HasEdge(g1, a, b) && (forall c | c in cs :: HasEdge(g1, b, c) && c != a)
    ensures forall c | c in cs[..k + 1] :: HasEdge(g1, a, c)
  {
    assert cs[..k + 1] == cs[..k] + [cs[k]];
    assert (a, b) in Edges(g1) && (a, cs[k]) in Edges(g1);
    forall c | c in cs
      ensures HasEdge(g1, b, c)
    {
      assert (b, c) in Edges(g1);
    }
    forall c | c in cs[..k]
      ensures HasEdge(g1, a, c)
    {
      assert (a, c) in Edges(g1);
    }
  }

  /** Scanning the entry `rep[i]` in the transitivity pass. */
  method ShortcutEntry(l: Lgr, r0: Lgr, i: nat) returns (r: Lgr)
    requires WellFormed(l) && i < |l.repertoire| && ShortcutInv(l, r0)
    ensures ShortcutInv(l, r) && Grows(r0, r)
    ensures forall b, c | HasEdge(l.variants, l.repertoire[i], b) && HasEdge(l.variants, b, c) && c != l.repertoire[i] ::
              HasEdge(r.variants, l.repertoire[i], c)
    ensures NewEdgesOutOf(r0.variants, r.variants, l.repertoire[i])
    ensures AddedWithin(r0.variants, r.variants, Hop(r0.variants, r0.variants))
  {
    var a := l.repertoire[i];
    r := r0;
    GrowsReflexive(r0);
    var vs := r.variants[a];
    var j := 0;
    while j < |vs|
      invariant 0 <= j <= |vs|
      invariant ShortcutInv(l, r) && Grows(r0, r)
      invariant forall y | y in vs :: HasEdge(r.variants, a, y)
      invariant forall b, c | b in vs[..j] && HasEdge(l.variants, b, c) && c != a :: HasEdge(r.variants, a, c)
      invariant NewEdgesOutOf(r0.variants, r.variants, a)
      invariant AddedWithin(r0.variants, r.variants, Hop(r0.variants, r0.variants))
    {
      var r1 := ShortcutVia(l, r, a, vs[j]);
      ViaAddsShortcuts(r0.variants, r.variants, r1.variants, a, vs[j]);
      NewEdgesOutOfChain(r0.variants, r.variants, r1.variants, a);
      GrowsKeepsEdges(r, r1);
      GrowsTransitive(r0, r, r1);
      ShortcutViaStep(l, r, r1, a, vs, j);
      r := r1;
      j := j + 1;
    }
    assert vs[..j] == vs;
    GrowsKeepsEdges(l, r0);
  }

  lemma ShortcutViaStep(l: Lgr, r: Lgr, r1: Lgr, a: CodePoint, vs: seq<CodePoint>, j: nat)
    requires j < |vs|
    requires forall b, c | b in vs[..j] && HasEdge(l.variants, b, c) && c != a :: HasEdge(r.variants, a, c)
    requires forall x, y | HasEdge(r.variants, x, y) :: HasEdge(r1.variants, x, y)
    requires forall c | HasEdge(l.variants, vs[j], c) && c != a :: HasEdge(r1.variants, a, c)
    ensures forall b, c | b in vs[..j + 1] && HasEdge(l.variants, b, c) && c != a :: HasEdge(r1.variants, a, c)
  {
    assert vs[..j + 1] == vs[..j] + [vs[j]];
  }

  /** The transitivity sub-pass: every two-hop path a -> b -> c with c
      distinct from a that is present when it is scanned gets the short-cut
      a -> c, added only when missing. */
  method TransitivityPass(l: Lgr) returns (r: Lgr)
    requires WellFormed(l) && TargetsExist(l.variants)
    ensures r.repertoire == l.repertoire && r.variants.Keys == l.variants.Keys
    ensures TargetsExist(r.variants) && Grows(l, r)
    ensures Forced(Edges(l.variants), Edges(r.variants))
    ensures forall a, b, c | HasEdge(l.variants, a, b) && HasEdge(l.variants, b, c) && c != a :: HasEdge(r.variants, a, c)
    ensures forall a | HasEdge(r.variants, a, a) :: HasEdge(l.variants, a, a)
    ensures OnlyShortcuts(l, r)
    ensures forall x, y | HasEdge(r.variants, x, y) && !HasEdge(l.variants, x, y) ::
              exists m :: HasEdge(l.variants, x, m) && HasEdge(r.variants, m, y)
    ensures Transitive(l.variants) ==> r == l
  {
    var rep := l.repertoire;
    r := l;
    GrowsReflexive(l);
    var i := 0;
    while i < |rep|
      invariant 0 <= i <= |rep|
      invariant ShortcutInv(l, r)
      invariant forall k, b, c | 0 <= k < i && HasEdge(l.variants, rep[k], b) && HasEdge(l.variants, b, c) && c != rep[k] ::
                  HasEdge(r.variants, rep[k], c)
      invariant Unscanned(l, r, i)
      invariant AddedWithin(l.variants, r.variants, Hop(l.variants, r.variants))
    {
      var r1 := ShortcutEntry(l, r, i);
      GrowsKeepsEdges(r, r1);
      EntryAddsShortcuts(l, r, r1, i);
      ShortcutPassStep(l, r, r1, i);
      r := r1;
      i := i + 1;
    }
    ShortcutComplete(l, r);
    HopWitness(l.variants, r.variants);
  }

  /** The entries from `rep[i]` on still have the lists they had in `l`. */
  ghost predicate Unscanned(l: Lgr, r: Lgr, i: nat) {
    forall k | i <= k < |l.repertoire| ::
      && l.repertoire[k] in l.variants && l.repertoire[k] in r.variants
      && r.variants[l.repertoire[k]] == l.variants[l.repertoire[k]]
  }

  /** Every new target of `g` is in `cs`. */
  ghost predicate NewTargetsIn(g0: Graph, g: Graph, cs: seq<CodePoint>) {
    forall x, y | HasEdge(g, x, y) && !HasEdge(g0, x, y) :: y in cs
  }

  lemma NewTargetsInStep(g0: Graph, g: Graph, g1: Graph, a: CodePoint, cs: seq<CodePoint>, k: nat)
    requires k < |cs| && NewTargetsIn(g0, g, cs) && Edges(g1) == Edges(g) + {(a, cs[k])}
    ensures NewTargetsIn(g0, g1, cs)
  {
    forall x: CodePoint, y: CodePoint | HasEdge(g1, x, y) && !HasEdge(g0, x, y)
      ensures y in cs
    {
      assert (x, y) in Edges(g1);
    }
  }

  /** Scanning `b` from `a` adds only edges a -> y over b -> y; when `b` is
      itself a new target of `a` it adds nothing, so every edge added since the
      entry's scan began short-cuts a path of the state at that time. */
  lemma ViaAddsShortcuts(g0: Graph, g: Graph, g1: Graph, a: CodePoint, b: CodePoint)
    requires HasEdge(g0, a, b) && NewEdgesOutOf(g0, g, a)
    requires AddedWithin(g0, g, Hop(g0, g0))
    requires NewEdgesOutOf(g, g1, a)
    requires forall x, y | HasEdge(g1, x, y) && !HasEdge(g, x, y) :: HasEdge(g, b, y)
    ensures AddedWithin(g0, g1, Hop(g0, g0))
  {
    forall x: CodePoint, y: CodePoint | HasEdge(g1, x, y) && !HasEdge(g0, x, y)
      ensures (x, y) in Hop(g0, g0)
    {
      if !HasEdge(g, x, y) {
        assert x == a && HasEdge(g, b, y);
        assert HasEdge(g0, b, y);
        assert a in g0 && b in g0[a] && b in g0 && y in g0[b];
      }
    }
  }

  lemma ExtendsNothingNew(s: seq<CodePoint>, t: seq<CodePoint>)
    requires Extends(s, t) && forall y | y in t :: y in s
    ensures t == s
  {
    if |t| > |s| {
      ExtensionIsNew(s, t);
      assert false;
    }
  }

  /** The first appended element of an extension is not in the original. */
  lemma ExtensionIsNew(s: seq<CodePoint>, t: seq<CodePoint>)
    requires Extends(s, t) && |t| > |s|
    ensures t[|s|] in t && t[|s|] !in s
  {
    forall i | 0 <= i < |s|
      ensures s[i] != t[|s|]
    {
      assert s[i] == t[i];
    }
  }

  /** After the scan of `rep[i]`, the later entries are still untouched and
      every edge added in the pass so far short-cuts a path whose first hop is
      an original edge. */
  lemma EntryAddsShortcuts(l: Lgr, r: Lgr, r1: Lgr, i: nat)
    requires WellFormed(l) && i < |l.repertoire|
    requires Unscanned(l, r, i) && AddedWithin(l.variants, r.variants, Hop(l.variants, r.variants))
    requires Grows(r, r1) && r1.variants.Keys == r.variants.Keys
    requires NewEdgesOutOf(r.variants, r1.variants, l.repertoire[i])
    requires AddedWithin(r.variants, r1.variants, Hop(r.variants, r.variants))
    ensures Unscanned(l, r1, i + 1)
    ensures AddedWithin(l.variants, r1.variants, Hop(l.variants, r1.variants))
  {
    var rep, g, h, h1 := l.repertoire, l.variants, r.variants, r1.variants;
    forall k | i + 1 <= k < |rep|
      ensures rep[k] in h1 && h1[rep[k]] == g[rep[k]]
    {
      assert rep[k] != rep[i];
      forall y | y in h1[rep[k]]
        ensures y in h[rep[k]]
      {
        assert HasEdge(h1, rep[k], y);
      }
      ExtendsNothingNew(h[rep[k]], h1[rep[k]]);
    }
    GrowsKeepsEdges(r, r1);
    HopGrows(g, h, g, h1);
    forall x: CodePoint, y: CodePoint | HasEdge(h1, x, y) && !HasEdge(g, x, y)
      ensures (x, y) in Hop(g, h1)
    {
      if !HasEdge(h, x, y) {
        assert x == rep[i] && (x, y) in Hop(h, h);
        var x', m, y' :| x' in h && m in h[x'] && m in h && y' in h[m] && (x, y) == (x', y');
        assert h[x] == g[x];
        assert x in g && m in g[x] && m in h && y in h[m];
      }
    }
  }

  lemma HopWitness(g: Graph, h: Graph)
    requires AddedWithin(g, h, Hop(g, h))
    ensures forall x, y | HasEdge(h, x, y) && !HasEdge(g, x, y) :: exists m :: HasEdge(g, x, m) && HasEdge(h, m, y)
  {
    forall x, y | HasEdge(h, x, y) && !HasEdge(g, x, y)
      ensures exists m :: HasEdge(g, x, m) && HasEdge(h, m, y)
    {
      var x', m, y' :| x' in g && m in g[x'] && m in h && y' in h[m] && (x, y) == (x', y');
      assert HasEdge(g, x, m) && HasEdge(h, m, y);
    }
  }

  lemma ShortcutPassStep(l: Lgr, r: Lgr, r1: Lgr, i: nat)
    requires i < |l.repertoire|
    requires forall k, b, c | 0 <= k < i && HasEdge(l.variants, l.repertoire[k], b) && HasEdge(l.variants, b, c) && c != l.repertoire[k] ::
               HasEdge(r.variants, l.repertoire[k], c)
    requires forall x, y | HasEdge(r.variants, x, y) :: HasEdge(r1.variants, x, y)
    requires forall b, c | HasEdge(l.variants, l.repertoire[i], b) && HasEdge(l.variants, b, c) && c != l.repertoire[i] ::
               HasEdge(r1.variants, l.repertoire[i], c)
    ensures forall k, b, c | 0 <= k < i + 1 && HasEdge(l.variants, l.repertoire[k], b) && HasEdge(l.variants, b, c) && c != l.repertoire[k] ::
              HasEdge(r1.variants, l.repertoire[k], c)
  {
  }

  lemma ShortcutComplete(l: Lgr, r: Lgr)
    requires WellFormed(l)
    requires forall k, b, c | 0 <= k < |l.repertoire| && HasEdge(l.variants, l.repertoire[k], b) && HasEdge(l.variants, b, c) && c != l.repertoire[k] ::
               HasEdge(r.variants, l.repertoire[k], c)
    ensures forall a, b, c | HasEdge(l.variants, a, b) && HasEdge(l.variants, b, c) && c != a :: HasEdge(r.variants, a, c)
  {
    forall a, b, c | HasEdge(l.variants, a, b) && HasEdge(l.variants, b, c) && c != a
      ensures HasEdge(r.variants, a, c)
    {
      var k :| 0 <= k < |l.repertoire| && l.repertoire[k] == a;
    }
  }
}

=== FILE: missing_entries.dfy ===
/**
 Phase one of population: every variant target that has no entry of its own
 receives an empty entry and a mirror edge back to the entry naming it.
 */
module MissingEntries {
  import opened VariantRelation

  /** The outcome of a search that may find nothing. */
  datatype Option<T> = None | Some(value: T)

  /** The first entry, in repertoire order, whose variant list names `b`:
      the scan of `rep` stops at the first entry listing `b`. */
  function FirstReferrer(rep: seq<CodePoint>, g: Graph, b: CodePoint): (r: Option<CodePoint>)
    decreases |rep|
  {
    if rep == [] then None
    else
      var n := |rep| - 1;
      match FirstReferrer(rep[..n], g, b)
      case Some(a) => Some(a)
      case None => if HasEdge(g, rep[n], b) then Some(rep[n]) else None
  }

  /** The referrer found is an entry of `rep` that names `b`; none is found
      only when no entry of `rep` names `b`; and every entry naming `b` sits
      at or after the referrer. */
  lemma {:induction false} FirstReferrerSpec(rep: seq<CodePoint>, g: Graph, b: CodePoint)
    ensures FirstReferrer(rep, g, b).Some? ==> FirstReferrer(rep, g, b).value in rep && HasEdge(g, FirstReferrer(rep, g, b).value, b)
    ensures FirstReferrer(rep, g, b).None? ==> forall x | x in rep :: !HasEdge(g, x, b)
    ensures FirstReferrer(rep, g, b).Some? ==>
              forall k | 0 <= k < |rep| && HasEdge(g, rep[k], b) :: FirstReferrer(rep, g, b).value in rep[..k + 1]
    decreases |rep|
  {
    if rep != [] {
      var n := |rep| - 1;
      var p := rep[..n];
      assert rep == p + [rep[n]];
      FirstReferrerSpec(p, g, b);
      if FirstReferrer(rep, g, b).Some? {
        var v := FirstReferrer(rep, g, b).value;
        forall k | 0 <= k < |rep| && HasEdge(g, rep[k], b)
          ensures v in rep[..k + 1]
        {
          if k < n {
            assert rep[..k + 1] == p[..k + 1] && p[k] == rep[k];
          } else {
            assert rep[..k + 1] == rep;
          }
        }
      }
    }
  }

  /** The state of phase one between two entries: the entries `done` have
      been scanned in full, and each new entry holds its mirror edge back to
      the first of them that named it. */
  ghost predicate Scanned(l: Lgr, r: Lgr, nowIn: seq<CodePoint>, done: seq<CodePoint>) {
    var g := l.variants;
    && Phase1Shape(l, r, nowIn)
    && (forall b | b !in g :: b in r.variants <==> FirstReferrer(done, g, b).Some?)
    && (forall b | b in r.variants && b !in g :: r.variants[b] == [FirstReferrer(done, g, b).value])
  }

  /** The state of phase one after the entries `done` have been scanned in
      full and the targets `seen` of the next entry `a` have been scanned. */
  ghost predicate Phase1(l: Lgr, r: Lgr, nowIn: seq<CodePoint>, done: seq<CodePoint>, seen: seq<CodePoint>, a: CodePoint) {
    Phase1Shape(l, r, nowIn) && Phase1Refs(l, r, done, seen, a)
  }

  /** Phase one only appends new entries, in `nowIn`, and leaves the old ones alone. */
  ghost predicate Phase1Shape(l: Lgr, r: Lgr, nowIn: seq<CodePoint>) {
    var g := l.variants;
    && WellFormed(r) && r.repertoire == l.repertoire + nowIn
    && (forall x :: x in r.variants <==> x in g || x in nowIn)
    && (forall x | x in nowIn :: x !in g)
    && (forall x | x in g :: r.variants[x] == g[x])
    && (TargetsExist(g) ==> r == l && nowIn == [])
  }

  /** The new entries are the targets scanned so far, each with its mirror
      edge back to the first entry that named it. */
  ghost predicate Phase1Refs(l: Lgr, r: Lgr, done: seq<CodePoint>, seen: seq<CodePoint>, a: CodePoint) {
    var g := l.variants;
    && (forall b | b !in g :: b in r.variants <==> FirstReferrer(done, g, b).Some? || b in seen)
    && (forall b | b in r.variants && b !in g :: r.variants[b] == [if FirstReferrer(done, g, b).Some? then FirstReferrer(done, g, b).value else a])
  }

  /** Scanning one edge a -> b of phase one. */
  method RepairTarget(l: Lgr, r0: Lgr, nowIn0: seq<CodePoint>, done: seq<CodePoint>, seen: seq<CodePoint>, a: CodePoint, b: CodePoint)
    returns (r: Lgr, nowIn: seq<CodePoint>)
    requires HasEdge(l.variants, a, b) && Phase1(l, r0, nowIn0, done, seen, a)
    ensures Phase1(l, r, nowIn, done, seen + [b], a)
    ensures b in r0.variants ==> r == r0 && nowIn == nowIn0
    ensures b !in r0.variants ==>
              && nowIn == nowIn0 + [b] && r.repertoire == r0.repertoire + [b]
              && r.variants.Keys == r0.variants.Keys + {b} && r.variants[b] == [a]
              && forall x | x in r0.variants :: r.variants[x] == r0.variants[x]
  {
    r, nowIn := r0, nowIn0;
    if b !in r.variants {
      // The lookup of `b` fails, so `b` has not been added in this phase.
      MissingNotAdded(l, r0, nowIn0, done, seen, a, b);
      if b !in nowIn {
        r := AddCp(r, b);
        nowIn := nowIn + [b];
      }
      r := AddVariant(r, b, a);
      AddedTarget(l, r0, nowIn0, done, seen, a, b, r, nowIn);
    } else {
      KnownTarget(l, r0, nowIn0, done, seen, a, b);
    }
  }

  lemma MissingNotAdded(l: Lgr, r0: Lgr, nowIn0: seq<CodePoint>, done: seq<CodePoint>, seen: seq<CodePoint>, a: CodePoint, b: CodePoint)
    requires Phase1(l, r0, nowIn0, done, seen, a) && b !in r0.variants
    ensures b !in nowIn0 && b !in l.variants && WellFormed(r0)
    ensures HasEdge(l.variants, a, b) ==> b in Targets(l.variants)
  {
  }

  lemma KnownTarget(l: Lgr, r: Lgr, nowIn: seq<CodePoint>, done: seq<CodePoint>, seen: seq<CodePoint>, a: CodePoint, b: CodePoint)
    requires Phase1(l, r, nowIn, done, seen, a) && b in r.variants
    ensures Phase1(l, r, nowIn, done, seen + [b], a)
  {
  }

  lemma AddedTarget(l: Lgr, r0: Lgr, nowIn0: seq<CodePoint>, done: seq<CodePoint>, seen: seq<CodePoint>, a: CodePoint, b: CodePoint, r: Lgr, nowIn: seq<CodePoint>)
    requires HasEdge(l.variants, a, b) && Phase1(l, r0, nowIn0, done, seen, a) && b !in r0.variants
    requires nowIn == nowIn0 + [b]
    requires r.repertoire == r0.repertoire + [b]
    requires r.variants.Keys == r0.variants.Keys + {b} && r.variants[b] == [a]
    requires forall x | x in r0.variants :: r.variants[x] == r0.variants[x]
    ensures Phase1(l, r, nowIn, done, seen + [b], a)
  {
    AddedTargetShape(l, r0, nowIn0, b, r, nowIn);
    AddedTargetRefs(l, r0, done, seen, a, b, r);
  }

  lemma AddedTargetShape(l: Lgr, r0: Lgr, nowIn0: seq<CodePoint>, b: CodePoint, r: Lgr, nowIn: seq<CodePoint>)
    requires Phase1Shape(l, r0, nowIn0) && b !in r0.variants && b in Targets(l.variants)
    requires nowIn == nowIn0 + [b]
    requires r.repertoire == r0.repertoire + [b]
    requires r.variants.Keys == r0.variants.Keys + {b}
    requires forall x | x in r0.variants :: r.variants[x] == r0.variants[x]
    ensures Phase1Shape(l, r, nowIn)
  {
    assert b !in r0.repertoire;
    assert Distinct(r.repertoire) by {
      forall i, j | 0 <= i < j < |r.repertoire|
        ensures r.repertoire[i] != r.repertoire[j]
      {
        if j < |r0.repertoire| {
          assert r.repertoire[i] == r0.repertoire[i] && r.repertoire[j] == r0.repertoire[j];
        } else {
          assert r.repertoire[i] in r0.repertoire;
        }
      }
    }
  }

  lemma AddedTargetRefs(l: Lgr, r0: Lgr, done: seq<CodePoint>, seen: seq<CodePoint>, a: CodePoint, b: CodePoint, r: Lgr)
    requires Phase1Refs(l, r0, done, seen, a) && b !in r0.variants && b !in l.variants
    requires r.variants.Keys == r0.variants.Keys + {b} && r.variants[b] == [a]
    requires forall x | x in r0.variants :: r.variants[x] == r0.variants[x]
    ensures Phase1Refs(l, r, done, seen + [b], a)
  {
  }

  /** Scanning the variant list of the entry `a` in phase one, after the
      entries `done`. */
  method RepairEntry(l: Lgr, r0: Lgr, nowIn0: seq<CodePoint>, done: seq<CodePoint>, a: CodePoint)
    returns (r: Lgr, nowIn: seq<CodePoint>)
    requires a in l.variants && Scanned(l, r0, nowIn0, done)
    ensures Scanned(l, r, nowIn, done + [a])
  {
    r, nowIn := r0, nowIn0;
    var vs := r.variants[a];
    StartEntry(l, r, nowIn, done, a);
    assert vs[..0] == [];
    var j := 0;
    while j < |vs|
      invariant 0 <= j <= |vs| && vs == l.variants[a]
      invariant Phase1(l, r, nowIn, done, vs[..j], a)
    {
      assert vs[..j + 1] == vs[..j] + [vs[j]];
      r, nowIn := RepairTarget(l, r, nowIn, done, vs[..j], a, vs[j]);
      j := j + 1;
    }
    assert vs[..j] == vs;
    NextEntry(l, r, nowIn, done, a);
  }

  lemma StartEntry(l: Lgr, r: Lgr, nowIn: seq<CodePoint>, done: seq<CodePoint>, a: CodePoint)
    requires Scanned(l, r, nowIn, done)
    ensures Phase1(l, r, nowIn, done, [], a)
  {
  }

  lemma NextEntry(l: Lgr, r: Lgr, nowIn: seq<CodePoint>, done: seq<CodePoint>, a: CodePoint)
    requires a in l.variants && Phase1(l, r, nowIn, done, l.variants[a], a)
    ensures Scanned(l, r, nowIn, done + [a])
  {
    var g := l.variants;
    var next := done + [a];
    assert next[..|next| - 1] == done;
    forall b | b !in g
      ensures FirstReferrer(next, g, b) ==
        if FirstReferrer(done, g, b).Some? then FirstReferrer(done, g, b)
        else if HasEdge(g, a, b) then Some(a) else None
    {
    }
  }

  /** Phase one: every variant target without an entry gets an empty entry,
      then a mirror edge back to the entry that named it first. */
  method RepairMissing(l: Lgr) returns (r: Lgr)
    requires WellFormed(l)
    ensures WellFormed(r) && TargetsExist(r.variants)
    ensures r.variants.Keys == l.variants.Keys + Targets(l.variants)
    ensures Grows(l, r)
    ensures forall a | a in l.variants :: r.variants[a] == l.variants[a]
    ensures forall b | b in r.variants && b !in l.variants ::
              && FirstReferrer(l.repertoire, l.variants, b).Some?
              && r.variants[b] == [FirstReferrer(l.repertoire, l.variants, b).value]
    ensures forall a, b | HasEdge(r.variants, a, b) :: HasEdge(l.variants, a, b) || HasEdge(l.variants, b, a)
    ensures TargetsExist(l.variants) ==> r == l
  {
    var g, rep := l.variants, l.repertoire;
    r := l;
    var nowIn: seq<CodePoint> := [];
    var i := 0;
    while i < |rep|
      invariant 0 <= i <= |rep|
      invariant Scanned(l, r, nowIn, rep[..i])
    {
      assert rep[..i + 1] == rep[..i] + [rep[i]];
      r, nowIn := RepairEntry(l, r, nowIn, rep[..i], rep[i]);
      i := i + 1;
    }
    assert rep[..i] == rep;
    Phase1Complete(l, r, nowIn);
  }

  lemma Phase1Complete(l: Lgr, r: Lgr, nowIn: seq<CodePoint>)
    requires WellFormed(l) && Scanned(l, r, nowIn, l.repertoire)
    ensures WellFormed(r) && TargetsExist(r.variants)
    ensures r.variants.Keys == l.variants.Keys + Targets(l.variants)
    ensures Grows(l, r)
    ensures forall a | a in l.variants :: r.variants[a] == l.variants[a]
    ensures forall b | b in r.variants && b !in l.variants ::
              && FirstReferrer(l.repertoire, l.variants, b).Some?
              && r.variants[b] == [FirstReferrer(l.repertoire, l.variants, b).value]
    ensures forall a, b | HasEdge(r.variants, a, b) :: HasEdge(l.variants, a, b) || HasEdge(l.variants, b, a)
    ensures TargetsExist(l.variants) ==> r == l
  {
    Phase1Entries(l, r, nowIn);
    Phase1Edges(l, r, nowIn);
  }

  /** Entries after phase one: the old ones plus every target. */
  lemma Phase1Entries(l: Lgr, r: Lgr, nowIn: seq<CodePoint>)
    requires WellFormed(l) && Scanned(l, r, nowIn, l.repertoire)
    ensures r.variants.Keys == l.variants.Keys + Targets(l.variants)
    ensures forall b | b in r.variants && b !in l.variants ::
              && FirstReferrer(l.repertoire, l.variants, b).Some?
              && r.variants[b] == [FirstReferrer(l.repertoire, l.variants, b).value]
  {
    var g, rep := l.variants, l.repertoire;
    forall x | x in Targets(g) && x !in g
      ensures x in r.variants
    {
      var a :| HasEdge(g, a, x);
      FirstReferrerSpec(rep, g, x);
      assert a in rep;
    }
    forall x | x in r.variants && x !in g
      ensures x in Targets(g)
    {
      FirstReferrerSpec(rep, g, x);
    }
  }

  /** Edges after phase one: the old ones plus one mirror per new entry. */
  lemma Phase1Edges(l: Lgr, r: Lgr, nowIn: seq<CodePoint>)
    requires WellFormed(l) && Scanned(l, r, nowIn, l.repertoire)
    ensures TargetsExist(r.variants)
    ensures forall a, b | HasEdge(r.variants, a, b) :: HasEdge(l.variants, a, b) || HasEdge(l.variants, b, a)
    ensures Grows(l, r)
  {
    Phase1TargetsExist(l, r, nowIn);
    Phase1Mirrors(l, r, nowIn);
    var g := l.variants;
    forall a | a in g
      ensures Extends(g[a], r.variants[a])
    {
    }
  }

  lemma Phase1TargetsExist(l: Lgr, r: Lgr, nowIn: seq<CodePoint>)
    requires WellFormed(l) && Scanned(l, r, nowIn, l.repertoire)
    ensures TargetsExist(r.variants)
  {
    var g, rep := l.variants, l.repertoire;
    forall x, y | x in r.variants && y in r.variants[x]
      ensures y in r.variants
    {
      if x in g {
        if y !in g {
          FirstReferrerSpec(rep, g, y);
          assert HasEdge(g, x, y) && x in rep;
        }
      } else {
        FirstReferrerSpec(rep, g, x);
      }
    }
  }

  lemma Phase1Mirrors(l: Lgr, r: Lgr, nowIn: seq<CodePoint>)
    requires WellFormed(l) && Scanned(l, r, nowIn, l.repertoire)
    ensures forall a, b | HasEdge(r.variants, a, b) :: HasEdge(l.variants, a, b) || HasEdge(l.variants, b, a)
  {
    var g, rep := l.variants, l.repertoire;
    forall x, y | HasEdge(r.variants, x, y)
      ensures HasEdge(g, x, y) || HasEdge(g, y, x)
    {
      if x !in g {
        FirstReferrerSpec(rep, g, x);
      }
    }
  }
}

=== FILE: populate.dfy ===
/**
 Population of a ruleset's variant relation: first every variant target
 without an entry receives one, then symmetry and transitivity passes run in
 turn until the relation is symmetric and transitive.
 */
module Populate {
  import opened VariantRelation
  import opened MissingEntries
  import opened Closure

  /** One round of the fixed-point loop: a symmetry pass, then a transitivity
      pass. A round that starts from an unpopulated relation adds at least one
      edge, and a round that starts from a populated one changes nothing. */
  method CloseOnce(l: Lgr) returns (r: Lgr)
    requires WellFormed(l) && TargetsExist(l.variants)
    ensures WellFormed(r) && TargetsExist(r.variants)
    ensures r.repertoire == l.repertoire && r.variants.Keys == l.variants.Keys
    ensures Grows(l, r)
    ensures Forced(Edges(l.variants), Edges(r.variants))
    ensures forall a | HasEdge(r.variants, a, a) :: HasEdge(l.variants, a, a)
    ensures Populated(l.variants) ==> r == l
    ensures !Populated(l.variants) ==> Edges(l.variants) < Edges(r.variants)
  {
    var s := SymmetryPass(l);
    r := TransitivityPass(s);
    GrowsTransitive(l, s, r);
    ForcedByMirrors(Edges(l.variants), Edges(s.variants));
    ForcedTransitive(Edges(l.variants), Edges(s.variants), Edges(r.variants));
    GrowsKeepsEdges(l, s);
    GrowsKeepsEdges(s, r);
    RoundAddsEdge(l, s, r);
  }

  lemma RoundAddsEdge(l: Lgr, s: Lgr, r: Lgr)
    requires Symmetric(s.variants) && (Symmetric(l.variants) ==> s == l)
    requires forall x, y | HasEdge(l.variants, x, y) :: HasEdge(s.variants, x, y)
    requires forall x, y | HasEdge(s.variants, x, y) :: HasEdge(r.variants, x, y)
    requires forall a, b, c | HasEdge(s.variants, a, b) && HasEdge(s.variants, b, c) && c != a :: HasEdge(r.variants, a, c)
    requires TargetsExist(l.variants) && Edges(l.variants) <= Edges(r.variants)
    ensures !Populated(l.variants) ==> Edges(l.variants) < Edges(r.variants)
  {
    if !Symmetric(l.variants) {
      var a, b :| a in l.variants && b in l.variants[a] && !(b in l.variants && a in l.variants[b]);
      assert HasEdge(s.variants, a, b);
      assert (b, a) in Edges(r.variants) - Edges(l.variants);
    } else if !Transitive(l.variants) {
      var a, b, c :|
        a in l.variants && b in l.variants[a] && b in l.variants && c in l.variants[b] && c != a && c !in l.variants[a];
      assert (a, c) in Edges(r.variants) - Edges(l.variants);
    }
  }

  /** The whole routine: repair missing entries once, then loop until the
      relation is symmetric and transitive. The result holds exactly the
      edges that symmetry and transitivity demand of the original edges. */
  method PopulateLgr(l: Lgr) returns (r: Lgr)
    requires WellFormed(l)
    ensures WellFormed(r) && Populated(r.variants)
    ensures r.variants.Keys == l.variants.Keys + Targets(l.variants)
    ensures Grows(l, r)
    ensures Forced(Edges(l.variants), Edges(r.variants))
    ensures NewEntriesDistinct(l, r)
    ensures forall a | HasEdge(r.variants, a, a) :: HasEdge(l.variants, a, a)
    ensures Populated(l.variants) ==> r == l
  {
    r := RepairMissing(l);
    ForcedByMirrors(Edges(l.variants), Edges(r.variants));
    assert NewEntriesDistinct(l, r);
    ghost var cap := |r.variants.Keys| * |r.variants.Keys|;
    EdgeBound(r.variants);
    while !(Symmetric(r.variants) && Transitive(r.variants))
      invariant WellFormed(r) && TargetsExist(r.variants)
      invariant r.variants.Keys == l.variants.Keys + Targets(l.variants)
      invariant Grows(l, r) && NewEntriesDistinct(l, r)
      invariant Forced(Edges(l.variants), Edges(r.variants))
      invariant forall a | HasEdge(r.variants, a, a) :: HasEdge(l.variants, a, a)
      invariant Populated(l.variants) ==> r == l
      invariant cap == |r.variants.Keys| * |r.variants.Keys| && |Edges(r.variants)| <= cap
      decreases cap - |Edges(r.variants)|
    {
      var r1 := CloseOnce(r);
      SubsetSize(Edges(r.variants), Edges(r1.variants));
      EdgeBound(r1.variants);
      GrowsTransitive(l, r, r1);
      NewEntriesStayDistinct(l, r, r1);
      ForcedTransitive(Edges(l.variants), Edges(r.variants), Edges(r1.variants));
      r := r1;
    }
  }

  /** Every entry not in `l` lists each of its variants once. */
  ghost predicate NewEntriesDistinct(l: Lgr, r: Lgr) {
    forall b | b in r.variants && b !in l.variants :: Distinct(r.variants[b])
  }

  lemma NewEntriesStayDistinct(l: Lgr, r: Lgr, r1: Lgr)
    requires NewEntriesDistinct(l, r) && Grows(r, r1) && r1.variants.Keys == r.variants.Keys
    ensures NewEntriesDistinct(l, r1)
  {
    forall b | b in r1.variants && b !in l.variants
      ensures Distinct(r1.variants[b])
    {
      ExtendsDistinct(r.variants[b], r1.variants[b]);
    }
  }

  const A: CodePoint := 0x0061
  const B: CodePoint := 0x0430
  const C: CodePoint := 0x0251

  /** Three entries chained a -> b -> c close to the full symmetric clique of
      six edges: any closed relation forced by the chain is exactly that. */
  lemma ChainClosesToClique(e: set<Edge>)
    requires Closed(e) && {(A, B), (B, C)} <= e && Forced({(A, B), (B, C)}, e)
    ensures e == {(A, B), (B, A), (B, C), (C, B), (A, C), (C, A)}
  {
    var clique := {(A, B), (B, A), (B, C), (C, B), (A, C), (C, A)};
    assert Closed(clique);
    assert e <= clique;
    assert (B, A) in e && (C, B) in e;
    assert (A, C) in e;
    assert (C, A) in e;
  }

  /** The ruleset of three entries chained a -> b -> c. */
  function Chain(): (l: Lgr) {
    Lgr([A, B, C], map[A := [B], B := [C], C := []])
  }

  lemma ChainShape()
    ensures WellFormed(Chain()) && TargetsExist(Chain().variants)
    ensures Chain().variants.Keys + Targets(Chain().variants) == {A, B, C}
    ensures Edges(Chain().variants) == {(A, B), (B, C)}
  {
    ChainTargets();
    ChainEdges();
  }

  lemma ChainTargets()
    ensures TargetsExist(Chain().variants)
    ensures Chain().variants.Keys + Targets(Chain().variants) == {A, B, C}
  {
    var g := Chain().variants;
    assert g.Keys == {A, B, C};
    assert forall b | b in Targets(g) :: b in g;
  }

  lemma ChainEdges()
    ensures Edges(Chain().variants) == {(A, B), (B, C)}
  {
    var g := Chain().variants;
    forall p: Edge | p in Edges(g)
      ensures p in {(A, B), (B, C)}
    {
      var (x, y) := p;
      assert HasEdge(g, x, y);
    }
    assert HasEdge(g, A, B) && HasEdge(g, B, C);
  }

  /** The routine run on the chain a -> b -> c of three entries returns the
      full symmetric clique on them, with no further entry. */
  method PopulateChain() returns (r: Lgr)
    ensures r.variants.Keys == {A, B, C}
    ensures Edges(r.variants) == {(A, B), (B, A), (B, C), (C, B), (A, C), (C, A)}
  {
    ChainShape();
    r := PopulateLgr(Chain());
    ClosedIffPopulated(r.variants);
    GrowsKeepsEdges(Chain(), r);
    ChainClosesToClique(Edges(r.variants));
  }
}

=== FILE: variant_relation.dfy ===
/**
 A Label Generation Ruleset reduced to what variant population touches: an
 ordered repertoire of code points and, for each of them, the ordered list of
 its variant targets. An edge a -> b means "b is a variant of a". Variant
 metadata (type, when/not-when rules, comments) is not represented.
 */
module VariantRelation {

  /** A repertoire key; a code point sequence of the ruleset is abstracted to one number. */
  type CodePoint = nat

  /** Each entry's code point mapped to the targets of its variant edges, in insertion order. */
  type Graph = map<CodePoint, seq<CodePoint>>

  type Edge = (CodePoint, CodePoint)

  datatype Lgr = Lgr(repertoire: seq<CodePoint>, variants: Graph)

  predicate HasEdge(g: Graph, a: CodePoint, b: CodePoint) {
    a in g && b in g[a]
  }

  predicate Distinct(s: seq<CodePoint>) {
    forall i, j | 0 <= i < j < |s| :: s[i] != s[j]
  }

  /** The ruleset's own invariant: every code point is listed once, and the
      repertoire order lists exactly the entries that own a variant list. */
  predicate WellFormed(l: Lgr) {
    && Distinct(l.repertoire)
    && (forall cp | cp in l.repertoire :: cp in l.variants)
    && (forall cp | cp in l.variants :: cp in l.repertoire)
  }

  /** Every variant target has an entry of its own. */
  predicate TargetsExist(g: Graph) {
    forall a, b | a in g && b in g[a] :: b in g
  }

  /** Every edge has its mirror; a target without an entry has no mirror. */
  predicate Symmetric(g: Graph) {
    forall a, b | a in g && b in g[a] :: b in g && a in g[b]
  }

  /** Every two-hop path a -> b -> c with c distinct from a is short-cut by an
      edge a -> c; a path that returns to its origin asks for nothing. */
  predicate Transitive(g: Graph) {
    forall a, b, c | a in g && b in g[a] && b in g && c in g[b] && c != a :: c in g[a]
  }

  /** The state the population routine establishes. */
  predicate Populated(g: Graph) {
    TargetsExist(g) && Symmetric(g) && Transitive(g)
  }

  function Edges(g: Graph): (e: set<Edge>)
    ensures forall a: CodePoint, b: CodePoint :: (a, b) in e <==> HasEdge(g, a, b)
  {
    set a, b | a in g && b in g[a] :: (a, b)
  }

  /** The code points that occur as the target of some edge. */
  function Targets(g: Graph): (t: set<CodePoint>)
    ensures forall a, b | HasEdge(g, a, b) :: b in t
    ensures forall b | b in t :: exists a :: HasEdge(g, a, b)
  {
    var t := set a, b | a in g && b in g[a] :: b;
    assert forall b | b in t :: exists a :: HasEdge(g, a, b) by {
      forall b | b in t
        ensures exists a :: HasEdge(g, a, b)
      {
        var a :| a in g && b in g[a];
        assert HasEdge(g, a, b);
      }
    }
    t
  }

  /** `t` is `s` followed by new targets, none of which repeats an earlier one:
      existing edges are kept in place and no duplicate edge is inserted. */
  predicate Extends(s: seq<CodePoint>, t: seq<CodePoint>) {
    && s <= t
    && forall i, j | 0 <= i < j < |t| && |s| <= j :: t[i] != t[j]
  }

  /** `r` is `l` with entries and edges only added, never removed or reordered. */
  predicate Grows(l: Lgr, r: Lgr) {
    && l.repertoire <= r.repertoire
    && forall a | a in l.variants :: a in r.variants && Extends(l.variants[a], r.variants[a])
  }

  /** Inserting a new, empty entry (the ruleset's `add_cp`). */
  function AddCp(l: Lgr, cp: CodePoint): (r: Lgr)
    requires WellFormed(l) && cp !in l.variants
    ensures WellFormed(r) && Grows(l, r)
    ensures r.repertoire == l.repertoire + [cp]
    ensures r.variants.Keys == l.variants.Keys + {cp} && r.variants[cp] == []
    ensures forall a | a in l.variants :: r.variants[a] == l.variants[a]
    ensures Edges(r.variants) == Edges(l.variants)
  {
    var r := Lgr(l.repertoire + [cp], l.variants[cp := []]);
    assert Edges(r.variants) == Edges(l.variants);
    r
  }

  /** Inserting the edge a -> b (the ruleset's `add_variant`), which the
      ruleset refuses for a missing entry or an edge already present. */
  function AddVariant(l: Lgr, a: CodePoint, b: CodePoint): (r: Lgr)
    requires a in l.variants && b !in l.variants[a]
    ensures r.repertoire == l.repertoire && r.variants.Keys == l.variants.Keys
    ensures Grows(l, r)
    ensures forall x, y :: HasEdge(r.variants, x, y) <==> HasEdge(l.variants, x, y) || (x == a && y == b)
    ensures forall x | x in l.variants && x != a :: r.variants[x] == l.variants[x]
    ensures r.variants[a] == l.variants[a] + [b]
    ensures Edges(r.variants) == Edges(l.variants) + {(a, b)}
  {
    var r := Lgr(l.repertoire, l.variants[a := l.variants[a] + [b]]);
    assert Edges(r.variants) == Edges(l.variants) + {(a, b)};
    r
  }

  lemma GrowsReflexive(l: Lgr)
    ensures Grows(l, l)
  {
    forall a | a in l.variants
      ensures Extends(l.variants[a], l.variants[a])
    {
    }
  }

  lemma ExtendsTransitive(s: seq<CodePoint>, t: seq<CodePoint>, u: seq<CodePoint>)
    requires Extends(s, t) && Extends(t, u)
    ensures Extends(s, u)
  {
    forall i, j | 0 <= i < j < |u| && |s| <= j
      ensures u[i] != u[j]
    {
      if j < |t| {
        assert u[i] == t[i] && u[j] == t[j];
      }
    }
  }

  /** Extending a list without duplicates keeps it without duplicates. */
  lemma ExtendsDistinct(s: seq<CodePoint>, t: seq<CodePoint>)
    requires Distinct(s) && Extends(s, t)
    ensures Distinct(t)
  {
    forall i, j | 0 <= i < j < |t|
      ensures t[i] != t[j]
    {
      if j < |s| {
        assert t[i] == s[i] && t[j] == s[j];
      }
    }
  }

  lemma GrowsTransitive(l1: Lgr, l2: Lgr, l3: Lgr)
    requires Grows(l1, l2) && Grows(l2, l3)
    ensures Grows(l1, l3)
  {
    forall a | a in l1.variants
      ensures a in l3.variants && Extends(l1.variants[a], l3.variants[a])
    {
      ExtendsTransitive(l1.variants[a], l2.variants[a], l3.variants[a]);
    }
  }

  /** Growth keeps every edge. */
  lemma GrowsKeepsEdges(l: Lgr, r: Lgr)
    requires Grows(l, r)
    ensures forall a, b | HasEdge(l.variants, a, b) :: HasEdge(r.variants, a, b)
    ensures Edges(l.variants) <= Edges(r.variants)
  {
    forall a, b | HasEdge(l.variants, a, b)
      ensures HasEdge(r.variants, a, b)
    {
      var s, t := l.variants[a], r.variants[a];
      var k :| 0 <= k < |s| && s[k] == b;
      assert t[k] == b;
    }
  }

  /** The set-level reading of a symmetric relation that is transitive except
      across paths back to their origin. */
  ghost predicate Closed(S: set<Edge>) {
    && (forall a: CodePoint, b: CodePoint | (a, b) in S :: (b, a) in S)
    && (forall a: CodePoint, b: CodePoint, c: CodePoint | (a, b) in S && (b, c) in S && c != a :: (a, c) in S)
  }

  /** Every edge of `e` belongs to every closed relation that contains `e0`:
      nothing in `e` goes beyond what symmetry and transitivity demand of `e0`. */
  ghost predicate Forced(e0: set<Edge>, e: set<Edge>) {
    forall S: set<Edge> | Closed(S) && e0 <= S :: e <= S
  }

  /** The map-level checks agree with the set-level definition; since a
      symmetric relation has an entry for every target, that is `Populated`. */
  lemma ClosedIffPopulated(g: Graph)
    ensures Closed(Edges(g)) <==> Symmetric(g) && Transitive(g)
    ensures Closed(Edges(g)) <==> Populated(g)
  {
    var e := Edges(g);
    if Symmetric(g) && Transitive(g) {
      forall a: CodePoint, b: CodePoint, c: CodePoint | (a, b) in e && (b, c) in e && c != a
        ensures (a, c) in e
      {
        assert HasEdge(g, a, b) && HasEdge(g, b, c);
      }
    }
    if Closed(e) {
      forall a, b | a in g && b in g[a]
        ensures b in g && a in g[b]
      {
        assert (a, b) in e;
        assert (b, a) in e;
      }
      forall a, b, c | a in g && b in g[a] && b in g && c in g[b] && c != a
        ensures c in g[a]
      {
        assert (a, b) in e && (b, c) in e;
        assert (a, c) in e;
      }
    }
  }

  lemma ForcedTransitive(e0: set<Edge>, e1: set<Edge>, e2: set<Edge>)
    requires Forced(e0, e1) && Forced(e1, e2)
    ensures Forced(e0, e2)
  {
  }

  /** A short-cut across a forced two-hop path is forced. */
  lemma ForcedShortcut(e0: set<Edge>, e: set<Edge>, a: CodePoint, b: CodePoint, c: CodePoint)
    requires Forced(e0, e) && (a, b) in e && (b, c) in e && c != a
    ensures Forced(e0, e + {(a, c)})
  {
  }

  /** Edges that are original or mirror an original edge are forced. */
  lemma ForcedByMirrors(e0: set<Edge>, e: set<Edge>)
    requires forall a: CodePoint, b: CodePoint | (a, b) in e :: (a, b) in e0 || (b, a) in e0
    ensures Forced(e0, e)
  {
    forall S: set<Edge> | Closed(S) && e0 <= S
      ensures e <= S
    {
      forall p: Edge | p in e
        ensures p in S
      {
        var (a, b) := p;
        if (a, b) !in e0 {
          assert (b, a) in S;
          assert (a, b) in S;
        }
      }
    }
  }

  /** The least closed relation over a set of edges is unique: whatever order
      the edges were repaired in, the outcome is the same. */
  lemma LeastClosureUnique(e0: set<Edge>, e1: set<Edge>, e2: set<Edge>)
    requires Closed(e1) && e0 <= e1 && Forced(e0, e1)
    requires Closed(e2) && e0 <= e2 && Forced(e0, e2)
    ensures e1 == e2
  {
  }

  function Product(A: set<CodePoint>, B: set<CodePoint>): (p: set<Edge>) {
    set a, b | a in A && b in B :: (a, b)
  }

  lemma {:induction false} RowSize(x: CodePoint, B: set<CodePoint>)
    ensures |Product({x}, B)| == |B|
    decreases B
  {
    if B == {} {
      assert Product({x}, B) == {};
    } else {
      var y :| y in B;
      RowSize(x, B - {y});
      assert Product({x}, B) == Product({x}, B - {y}) + {(x, y)};
    }
  }

  lemma {:induction false} ProductSize(A: set<CodePoint>, B: set<CodePoint>)
    ensures |Product(A, B)| == |A| * |B|
    decreases A
  {
    if A == {} {
      assert Product(A, B) == {};
    } else {
      var x :| x in A;
      ProductSize(A - {x}, B);
      RowSize(x, B);
      assert Product(A, B) == Product(A - {x}, B) + Product({x}, B);
      assert Product(A - {x}, B) !! Product({x}, B);
      assert |A| == |A - {x}| + 1;
      assert (|A - {x}| + 1) * |B| == |A - {x}| * |B| + |B|;
    }
  }

  lemma SubsetSize<T>(s: set<T>, t: set<T>)
    requires s <= t
    ensures |s| <= |t|
    ensures s < t ==> |s| < |t|
  {
    assert t == s + (t - s);
  }

  /** Once every target exists, the edges are pairs of entries, so there are
      at most |entries|^2 of them. */
  lemma EdgeBound(g: Graph)
    requires TargetsExist(g)
    ensures |Edges(g)| <= |g.Keys| * |g.Keys|
  {
    assert Edges(g) <= Product(g.Keys, g.Keys);
    SubsetSize(Edges(g), Product(g.Keys, g.Keys));
    ProductSize(g.Keys, g.Keys);
  }
}
